=== FILE: README.md ===
# russ channel store, modelled in Dafny

The russ server stores the RSS channels it has fetched in one JSON file on
disk. `FileDatabase` (server/src/persistence.rs) is that store:

- `new_for_path` opens or creates the file and records whether it existed;
- `persist_channel` reloads the stored list (only if the file existed or
  has been written), appends the new channel, and rewrites the file from
  offset 0;
- `get_channels` reloads the list;
- `load_database` rewinds and deserializes the whole file with serde_json.

A stored `Channel` keeps only the feed's title.

This project models the store as pure state transitions over
`FileDatabase(hasContent, file)`. The file's bytes are part of the state,
so the model can say exactly what each operation leaves on disk. The
file-system answers are parameters:

- whether the path existed, and what the file held;
- whether `open` succeeds;
- which I/O call fails first, as a `Fault`.

Every fallible call in the source is followed by `?`, so only the first
failure matters. When a write fails part-way, the bytes that reached the
file are a prefix of the encoding.

serde_json is modelled concretely for this one schema:

- `Json.Encode` is the compact writer's output `{"channels":[{"title":"..."},...]}`
  with serde_json's string escapes.
- `Json.Decode` is a reader that accepts that output, with whitespace
  around tokens and only whitespace after the value.
- The round trip `Decode(Encode(db)) == Some(db)` is proved, not assumed.

Modules:

| file | module | contents |
|---|---|---|
| wrappers.dfy | `Wrappers` | `Option`, `Result` |
| bytes.dfy | `Bytes` | the `byte` type, ASCII literals |
| schema.dfy | `Schema` | `RssChannel`, `Channel`, `Database`, the conversion |
| json.dfy | `Json` | writer, reader, round trip, length of an appended encoding |
| persistence.dfy | `Persistence` | `Open`, `LoadDatabase`, `Persist`, `GetChannels`, faults and errors |
| store_properties.dfy | `StoreProperties` | what persist leaves in the file and what a reload reads back |
| store_tests.dfy | `StoreTests` | the unit tests' scenarios, for all channels |
| findings.dfy | `Findings` | two defects, each with a corrected definition |

What the code does, in the points a reader might not expect:

- The store is an append-only list. `persist_channel` pushes the new
  channel (`Vec::push`, persistence.rs:55) and never replaces or removes an
  entry, even one with the same title. `StoreTests.PersistTwiceKeepsBoth`
  states this.
- Nothing locks the file; the TODO at persistence.rs:36 is the only trace
  of a lock.
- The test `test_persist_channel_replaces_existing` (persistence.rs:120-137)
  ends in `todo!` before its check that a second persist replaces the first.
- The rewrite never truncates the file. It writes from offset 0 over the
  old bytes, so a shorter rewrite leaves the old file's tail behind it
  (second row under "## Findings").

## Model

| member | source | states |
|---|---|---|
| Schema.FromRss | server/src/persistence.rs:20-26 | The stored channel carries the feed's title and nothing else. |
| Persistence.Open | server/src/persistence.rs:34-46 | Opening fails exactly when the open call fails. On success the store has content iff the path existed, and the file is the existing bytes, or empty when the file was created. |
| Persistence.LoadDatabase | server/src/persistence.rs:72-79 | Loading succeeds iff neither the rewind nor the read fails and the whole file decodes. The result is the decoded database. A failed rewind is reported as such ("rewinding database file"); every other failure is a deserialize failure ("deserializing database file"). |
| Persistence.Appended | server/src/persistence.rs:49-55 | The database persist writes ends in the new channel. Before it come the reloaded channels, or none when the store has no content. |
| Persistence.Persist | server/src/persistence.rs:48-65 | Success iff (the store has no content, or the reload succeeds) and no rewind, write, flush or sync fails. A failed reload is reported as a reload error whose cause is the load error; past the reload, each rewrite fault is reported as its own error. Success sets the flag; failure keeps it. A reload or rewind failure changes nothing. A failed write or flush leaves some prefix of the new encoding over the old bytes. A failed sync leaves all of it over them. On success the file is the new encoding written over the old bytes without truncation. |
| Persistence.GetChannels | server/src/persistence.rs:67-70 | Listing never changes the store. It succeeds iff the load succeeds, and returns the decoded channel list; a failure carries the load error unchanged. |
| Persistence.Overwrite | server/src/persistence.rs:56-61 | A write at offset 0 without truncation: the file begins with the written bytes, keeps every old byte past them, and its length is the larger of the two. |
| Persistence.WrittenPrefix | server/src/persistence.rs:59-61 | The bytes that reach the file before a failed write or flush are a prefix of the encoding; all of it when every byte was written. |
| Json.EscapeByte | server/src/persistence.rs:60 | A byte other than `"`, `\` and the control bytes below 0x20 is written as itself; each of those is written as a two- or six-byte escape starting with a backslash. |
| Json.Encode | server/src/persistence.rs:60 | A written database is the 13 bytes `{"channels":[`, then the channels' encoding, then `]}`. |
| Json.Decode | server/src/persistence.rs:77 | This reader reads nothing shorter than the 15-byte `{"channels":[]}` as a database; in particular an empty file is not one. (serde_json also reads shorter array forms; see "## Left out".) |
| Json.DecodeEncode | server/src/persistence.rs:60-77 | Every database the writer produces is read back unchanged. |
| Json.DecodeWithTail | server/src/persistence.rs:77 | A written database followed by a tail reads back unchanged iff the tail is whitespace only. Any other byte after the value makes the file unreadable. |
| Json.DecodeRejectsTrailingBytes | server/src/persistence.rs:77 | The common case of the above: a written database followed by a byte that is not whitespace does not decode. |
| Json.EncodeAppendLength | server/src/persistence.rs:55-60 | Appending a channel lengthens the encoding by that channel's encoding, plus a comma when the list was not empty. |
| StoreProperties.PersistOnFreshStore | server/src/persistence.rs:49-53 | A store without content never reloads: a persist succeeds iff the rewrite succeeds, even when a read would fail. A just-created file then holds exactly the one new channel. |
| StoreProperties.PersistAppends | server/src/persistence.rs:49-55 | A successful persist into a file the store wrote keeps it readable. The stored list becomes the previous list plus the new channel: one longer, every earlier entry in place, the new channel last. |
| StoreProperties.PersistCanonical | server/src/persistence.rs:48-65 | With no I/O failure, a persist into a file the store wrote always succeeds and appends. |
| StoreProperties.PersistThenList | server/src/persistence.rs:48-70 | Listing right after such a persist returns the previous channels followed by the new one. |
| StoreProperties.NewStoreIsCanonical | server/src/persistence.rs:34-53 | A store opened on a missing path is in the state persist expects: no content, empty file, empty list. |
| StoreProperties.ReopenSameState | server/src/persistence.rs:34-46 | Opening the file of a store that has content again yields the same state. |
| StoreProperties.ReloadFailureWritesNothing | server/src/persistence.rs:49-50 | When the store has content and the reload fails, persist fails with a reload error and leaves the state, flag and bytes, untouched. |
| StoreProperties.RewriteWithoutTruncation | server/src/persistence.rs:56-62 | After a successful persist the file is the new encoding if that is at least as long as the old file, and otherwise the new encoding followed by the old file's remaining bytes. |
| StoreProperties.GetChannelsOfCanonical | server/src/persistence.rs:67-70 | Listing a file the store wrote returns exactly its channels. |
| StoreProperties.NewStoreCannotBeListed | server/src/persistence.rs:67-79 | On a store just created, listing fails (the empty file does not decode) rather than returning an empty list. |
| StoreTests.PersistTwiceKeepsBoth | server/src/persistence.rs:120-137 | Persisting the same channel twice lists it twice after the earlier entries: no deduplication. |
| StoreTests.FirstPersistOnNewFile | server/src/persistence.rs:89-100 | The first persist into a created file succeeds and leaves exactly the encoding of that one channel. |
| StoreTests.PersistOntoEncoded | server/src/persistence.rs:48-65 | A persist into a file holding the encoding of a list rewrites it to the encoding of that list plus the new channel. |
| StoreTests.ListEncoded | server/src/persistence.rs:67-79 | Listing a file that holds the encoding of a list returns that list. |
| StoreTests.ReopenKeepsEarlierChannels | server/src/persistence.rs:88-118 | Create a file, persist one channel, open it again, persist another: both persists succeed, and listing returns both channels in persist order. |
| Findings.EmptyExistingFileRejectsEveryPersist | server/src/persistence.rs:34-53 | As written: a store opened on an existing empty file rejects every persist with a reload error and stays as it was. |
| Findings.OpenFixed | server/src/persistence.rs:34-46 | Corrected open: the store has content iff the file exists and is non-empty. |
| Findings.OpenFixedAcceptsPersist | server/src/persistence.rs:34-53 | With the corrected open, a missing path, an empty file or a file the store wrote all give a store that accepts a persist. |
| Findings.EscapeAppendPlainLength | server/src/persistence.rs:60 | Appending bytes the writer copies unchanged lengthens the escaped string by exactly that many bytes. |
| Findings.EncodeSingle | server/src/persistence.rs:60 | A one-channel database is 27 bytes plus the escaped title, and ends in `"}]}`. |
| Findings.ShorterRewriteLeavesStaleTail | server/src/persistence.rs:48-65 | As written: a first persist fails at `sync_all` after its bytes were written, then a persist with a shorter encoding succeeds. The file then no longer decodes, listing fails, and every later persist fails. |
| Findings.ExtendedTitleEncodings | server/src/persistence.rs:93-106 | Encoded alone, a title followed by " 2" is two bytes longer, and the shorter encoding ends where the longer one has its `]`. |
| Findings.ExtendedTitleLeavesStaleTail | server/src/persistence.rs:93-106 | The stale-tail defect for any title and the same title followed by " 2". |
| Findings.PaddedEmptyDecodes | server/src/persistence.rs:77 | An empty list written with spaces before its `]` is read as the empty database. |
| Findings.PaddedFileLeavesStaleTail | server/src/persistence.rs:48-70 | As written, with no I/O failure: on any padded empty file longer than the new encoding, a persist succeeds but leaves the end of the old file, at least its closing brace, behind. Listing and every later persist then fail. |
| Findings.TestTitlesLeaveStaleTail | server/src/persistence.rs:93-106 | The stale-tail defect for the unit test's titles "Test Channel 2" then "Test Channel". |
| Findings.PersistTruncating | server/src/persistence.rs:56-63 | Corrected persist that cuts the file to the written length. It has the same result and flag as persist, and after a success the file decodes to the previous list plus the new channel. |
| Findings.TruncatingRewriteRecovers | server/src/persistence.rs:48-70 | With truncation, the same events leave a readable store holding the second channel, and the next persist succeeds. |

## Left out

- server/src/fetcher.rs, server/src/server.rs and server/src/main.rs are not part of this model. They cover HTTP fetching, RSS parsing, the web server and task spawning.
- Locking. The source has none; the TODO at persistence.rs:36 is unimplemented, and concurrent writers are not modelled.
- Durability. `sync_all` is a step that may fail; what the disk keeps after a crash is not modelled.
- File cursor. The model tracks only the file's bytes: every read and write in the source starts with a rewind to offset 0.
- Check then open. The gap between `path.exists()` and `open` is not modelled; `disk` is the file as `open` finds it.
- Other `rss::Channel` fields. `RssChannel` keeps only title, link and description, to show that the conversion drops them.
- Json.Decode: reads only this schema's object form, as the writer produces it, with whitespace between tokens and after the value. serde_json also reads the following, which `Decode` rejects:
  - a struct written as an array of its fields, e.g. `[[]]` for an empty database or `[[["t"]]]` for one channel titled `t`;
  - field names spelled with escapes, e.g. `"\u0063hannels"`;
  - `\u` escapes at or above 0x80 in titles, and surrogate pairs;
  - unknown fields, which it skips.

  UTF-8 validation of titles is not modelled: a title is a byte string. Every file the store writes itself is read alike by both.
- Persistence.LoadDatabase: "the file decodes" means decodes with `Json.Decode`. On a file serde_json reads but `Decode` rejects, such as `[[]]`, the model reports a load failure where the source succeeds.
- Persistence.GetChannels: the same limit as `LoadDatabase`.
- Persistence.Persist: the same limit, for the reload. Its success condition is exact only for files inside `Decode`'s language.
- StoreProperties.ReloadFailureWritesNothing: the same limit. It also covers files that serde_json reads but `Decode` rejects, on which the source's reload succeeds.
- The two findings rest only on files that serde_json rejects as well: an empty file (end of input), or a complete database followed by a byte that is not whitespace (trailing characters).
- Error messages. The `anyhow` context strings are modelled as distinct `Error` and `LoadError` constructors, not as text.

## Findings

| source | as written | input that shows it | evidently intended | confidence | as-written member | corrected member |
|---|---|---|---|---|---|---|
| server/src/persistence.rs:35-44 | `has_content` is set from `path.exists()`, so an existing empty file counts as holding a database | Open a store on a path, stop before the first persist (the file is created empty), and reopen it: every persist fails with "reloading database", forever | Treat an empty file like a missing one and start from an empty list | not executed | Findings.EmptyExistingFileRejectsEveryPersist | Findings.OpenFixed |
| server/src/persistence.rs:56-63 | The rewrite seeks to 0 and writes without truncating the file | On a new store, persist "Test Channel 2" with `sync_all` failing, so the bytes are written but the flag stays false. Then persist "Test Channel": it succeeds but leaves `]}` after the new JSON. Listing and every later persist then fail with trailing characters. With no I/O failure, a readable file does the same: an empty channel list padded with spaces before its closing bracket, longer than the new encoding. With 13 spaces, persisting a channel with an empty title succeeds but leaves one stray closing brace at the end (Findings.PaddedFileLeavesStaleTail) | Truncate the file to the written length (`File::set_len`) so the file holds exactly one database | not executed | Findings.TestTitlesLeaveStaleTail | Findings.PersistTruncating |

=== FILE: bytes.dfy ===
/** Bytes, as stored in the database file and in Rust's UTF-8 `String`s. */
module Bytes {

  newtype byte = x: int | 0 <= x < 256

  /** The bytes of a string made only of ASCII characters. */
  function Ascii(s: string): (r: seq<byte>)
    requires forall i | 0 <= i < |s| :: s[i] as int < 128
    ensures |r| == |s|
    ensures forall i | 0 <= i < |s| :: r[i] as int == s[i] as int
  {
    seq(|s|, i requires 0 <= i < |s| => s[i] as int as byte)
  }
}

=== FILE: findings.dfy ===
/**
 * Two defects of the store as written, each shown on a concrete input and
 * paired with a corrected definition whose intended property is proved.
 *
 * 1. `new_for_path` records "has content" from the path existing, so a file
 *    that exists but is empty (left by a run that opened the store and
 *    stopped before its first persist) makes every later persist fail.
 * 2. The rewrite never truncates, so a successful write shorter than the
 *    file leaves stale bytes behind it and the file stops decoding; from
 *    then on every persist fails. A failed first write, or a readable file
 *    padded with whitespace, sets this up.
 */
module Findings {
  import opened Wrappers
  import opened Bytes
  import opened Schema
  import opened Json
  import opened Persistence
  import opened StoreProperties

  // ---------------------------------------------------------------------
  // 1. An existing empty file
  // ---------------------------------------------------------------------

  /**
   * As written: a store opened on an existing empty file rejects every
   * persist, whatever the I/O does, and stays as it was, so the next persist
   * fails the same way.
   */
  lemma EmptyExistingFileRejectsEveryPersist(rss: RssChannel, fault: Fault)
    ensures Open(Some([]), true).Success?
    ensures Persist(Open(Some([]), true).value, rss, fault).result.Failure?
    ensures Persist(Open(Some([]), true).value, rss, fault).result.error.ReloadFailed?
    ensures Persist(Open(Some([]), true).value, rss, fault).db == Open(Some([]), true).value
  {
    assert Decode([]).None?;
  }

  /** Corrected `new_for_path`: the store has content only if the file is non-empty. */
  function OpenFixed(disk: Option<seq<byte>>, openSucceeds: bool): (r: Result<FileDatabase, Error>)
    ensures r.Success? <==> openSucceeds
    ensures r.Success? ==> (r.value.hasContent <==> disk.Some? && |disk.value| > 0)
    ensures r.Success? ==> r.value.file == (if disk.Some? then disk.value else [])
  {
    if !openSucceeds then Failure(OpenFailed)
    else
      match disk
      case None => Success(FileDatabase(false, []))
      case Some(bytes) => Success(FileDatabase(|bytes| > 0, bytes))
  }

  /**
   * With the corrected open, a path that is absent, holds an empty file, or
   * holds a file the store wrote, gives a canonical store that accepts a
   * persist.
   */
  lemma OpenFixedAcceptsPersist(disk: Option<seq<byte>>, rss: RssChannel)
    requires disk.None? || disk == Some([]) || (disk.Some? && Decode(disk.value).Some? && Encode(Decode(disk.value).value) == disk.value)
    ensures Canonical(OpenFixed(disk, true).value)
    ensures Persist(OpenFixed(disk, true).value, rss, NoFault).result.Success?
  {
    var s := OpenFixed(disk, true).value;
    if disk.Some? && |disk.value| > 0 {
      assert s == FileDatabase(true, disk.value);
    } else {
      assert s == FileDatabase(false, []);
    }
    PersistCanonical(s, rss);
  }

  // ---------------------------------------------------------------------
  // 2. A shorter rewrite without truncation
  // ---------------------------------------------------------------------

  lemma {:induction false} EscapeAppendPlainLength(t: seq<byte>, extra: seq<byte>)
    requires forall i | 0 <= i < |extra| :: Plain(extra[i])
    ensures |Escape(t + extra)| == |Escape(t)| + |extra|
    decreases |t| + |extra|
  {
    if |extra| == 0 {
      assert t + extra == t;
    } else if |t| == 0 {
      assert t + extra == extra;
      assert extra == [extra[0]] + extra[1..];
      EscapeAppendPlainLength([], extra[1..]);
      assert [] + extra[1..] == extra[1..];
    } else {
      assert (t + extra)[1..] == t[1..] + extra;
      EscapeAppendPlainLength(t[1..], extra);
    }
  }

  /** A database of one channel ends in `"}]}` and is 27 bytes plus the escaped title. */
  lemma EncodeSingle(c: Channel)
    ensures var e := Encode(Database([c]));
            && |e| == 27 + |Escape(c.title)|
            && e[|e| - 4] == QUOTE && e[|e| - 3] == RBRACE && e[|e| - 2] == RBRACKET && e[|e| - 1] == RBRACE
  {
    assert EncodeItems([c]) == EncodeChannel(c);
  }

  /**
   * As written: a first persist of `long` fails at `sync_all` after its
   * bytes reached the file, so the flag stays false; a persist of `short`,
   * whose encoding is shorter, then succeeds but leaves the tail of the
   * longer encoding behind it. The file no longer decodes: listing fails,
   * and so does every later persist.
   */
  lemma ShorterRewriteLeavesStaleTail(long: RssChannel, short: RssChannel, next: RssChannel, fault: Fault)
    requires |Encode(Database([FromRss(short)]))| < |Encode(Database([FromRss(long)]))|
    requires !IsWhitespace(Encode(Database([FromRss(long)]))[|Encode(Database([FromRss(short)]))|])
    ensures Persist(Open(None, true).value, long, SyncFault).result == Failure(SyncFailed)
    ensures Persist(Persist(Open(None, true).value, long, SyncFault).db, short, NoFault).result.Success?
    ensures GetChannels(Persist(Persist(Open(None, true).value, long, SyncFault).db, short, NoFault).db, fault).result.Failure?
    ensures Persist(Persist(Persist(Open(None, true).value, long, SyncFault).db, short, NoFault).db, next, fault).result.Failure?
  {
    var longBytes := Encode(Database([FromRss(long)]));
    var shortBytes := Encode(Database([FromRss(short)]));
    var s0 := Open(None, true).value;
    var s1 := Persist(s0, long, SyncFault).db;
    assert s1 == FileDatabase(false, longBytes) by {
      assert Appended(s0, long) == Database([FromRss(long)]);
      OverwriteCovers([], longBytes);
    }
    var s2 := Persist(s1, short, NoFault).db;
    var tail := longBytes[|shortBytes|..];
    assert s2.file == shortBytes + tail by {
      assert Appended(s1, short) == Database([FromRss(short)]);
    }
    DecodeRejectsTrailingBytes(Database([FromRss(short)]), tail);
  }

  /** `k` space bytes. */
  function Spaces(k: nat): (r: seq<byte>)
    ensures |r| == k
    ensures forall i | 0 <= i < k :: r[i] == ' ' as byte
  {
    if k == 0 then [] else [' ' as byte] + Spaces(k - 1)
  }

  lemma {:induction false} SkipSpaces(k: nat, rest: seq<byte>)
    ensures SkipWhitespace(Spaces(k) + rest) == SkipWhitespace(rest)
  {
    if k > 0 {
      assert (Spaces(k) + rest)[1..] == Spaces(k - 1) + rest;
      SkipSpaces(k - 1, rest);
    } else {
      assert Spaces(k) + rest == rest;
    }
  }

  /**
   * An empty database as a pretty-printer or a hand edit may leave it:
   * `{"channels":[`, `k` spaces, `]}`.
   */
  function PaddedEmpty(k: nat): seq<byte>
  {
    [LBRACE] + (CHANNELS_KEY + ([COLON] + ([LBRACKET] + (Spaces(k) + ([RBRACKET] + [RBRACE])))))
  }

  /** The padded file is read as the empty database. */
  lemma PaddedEmptyDecodes(k: nat)
    ensures Decode(PaddedEmpty(k)) == Some(Database([]))
  {
    var e := [RBRACE];
    var d := Spaces(k) + ([RBRACKET] + e);
    var c := [LBRACKET] + d;
    var b := [COLON] + c;
    var a := CHANNELS_KEY + b;
    TokenAtHead([LBRACE], a);
    TokenAtHead(CHANNELS_KEY, b);
    TokenAtHead([COLON], c);
    TokenAtHead([LBRACKET], d);
    SkipSpaces(k, [RBRACKET] + e);
    assert ReadItems(d) == Some(([], e));
    assert Token(e, [RBRACE]) == Some([]);
    assert ReadDatabase(PaddedEmpty(k)) == Some((Database([]), []));
  }

  /**
   * As written, with no I/O failure: a store opened on a padded empty
   * database longer than the encoding of `rss` persists `rss` successfully,
   * but the end of the old file (at least its closing brace) stays behind
   * the new encoding. The file no longer decodes: listing fails, and so does
   * every later persist.
   */
  lemma PaddedFileLeavesStaleTail(k: nat, rss: RssChannel, next: RssChannel, fault: Fault)
    requires k > 12 + |Escape(rss.title)|
    ensures var s := Open(Some(PaddedEmpty(k)), true).value;
            var r := Persist(s, rss, NoFault);
            && Decode(s.file) == Some(Database([]))
            && r.result.Success?
            && GetChannels(r.db, fault).result.Failure?
            && Persist(r.db, next, fault).result.Failure?
  {
    var s := Open(Some(PaddedEmpty(k)), true).value;
    var c := FromRss(rss);
    PaddedEmptyDecodes(k);
    EncodeLayout(Spaces(k));
    EncodeSingle(c);
    var encoded := Encode(Database([c]));
    assert Appended(s, rss) == Database([c]) by {
      assert [] + [c] == [c];
    }
    var r := Persist(s, rss, NoFault);
    var tail := PaddedEmpty(k)[|encoded|..];
    assert r.db.file == encoded + tail;
    assert tail[|tail| - 1] == RBRACE;
    SkipWhitespaceKeepsLast(tail);
    DecodeWithTail(Database([c]), tail);
  }

  /** The two titles of the store's first unit test. */
  const TEST_CHANNEL: seq<byte> := Ascii("Test Channel")
  const TEST_CHANNEL_2: seq<byte> := Ascii("Test Channel 2")

  /** The suffix that turns the first test title into the second: two plain bytes. */
  lemma SuffixIsPlain()
    ensures |Ascii(" 2")| == 2
    ensures forall i | 0 <= i < |Ascii(" 2")| :: Plain(Ascii(" 2")[i])
  {
    assert Ascii(" 2")[0] == 0x20 && Ascii(" 2")[1] == 0x32;
  }

  /** "Test Channel 2" is "Test Channel" followed by that suffix. */
  lemma TestTitlesDiffer()
    ensures TEST_CHANNEL_2 == TEST_CHANNEL + Ascii(" 2")
  {
  }

  /**
   * Encoded alone, a channel whose title is another's followed by " 2" is
   * two bytes longer, and the shorter encoding ends where the longer one has
   * its `]`.
   */
  lemma ExtendedTitleEncodings(long: Channel, short: Channel)
    requires long.title == short.title + Ascii(" 2")
    ensures |Encode(Database([long]))| == |Encode(Database([short]))| + 2
    ensures Encode(Database([long]))[|Encode(Database([short]))|] == RBRACKET
  {
    SuffixIsPlain();
    EscapeAppendPlainLength(short.title, Ascii(" 2"));
    EncodeSingle(long);
    EncodeSingle(short);
  }

  /**
   * The defect for any pair of titles like the unit test's: a persist of the
   * longer title that fails at the sync, then one of the shorter.
   */
  lemma ExtendedTitleLeavesStaleTail(long: RssChannel, short: RssChannel, next: RssChannel)
    requires long.title == short.title + Ascii(" 2")
    ensures var s2 := Persist(Persist(Open(None, true).value, long, SyncFault).db, short, NoFault);
            && s2.result.Success?
            && GetChannels(s2.db, NoFault).result.Failure?
            && Persist(s2.db, next, NoFault).result.Failure?
  {
    ExtendedTitleEncodings(FromRss(long), FromRss(short));
    ShorterRewriteLeavesStaleTail(long, short, next, NoFault);
  }

  /**
   * The defect on the unit test's own titles: a persist of "Test Channel 2"
   * that fails at the sync, then one of "Test Channel".
   */
  lemma TestTitlesLeaveStaleTail(long: RssChannel, short: RssChannel, next: RssChannel)
    requires long.title == TEST_CHANNEL_2 && short.title == TEST_CHANNEL
    ensures var s2 := Persist(Persist(Open(None, true).value, long, SyncFault).db, short, NoFault);
            && s2.result.Success?
            && GetChannels(s2.db, NoFault).result.Failure?
            && Persist(s2.db, next, NoFault).result.Failure?
  {
    TestTitlesDiffer();
    ExtendedTitleLeavesStaleTail(long, short, next);
  }

  /**
   * Corrected `persist_channel`: after writing, the file is cut to the
   * length written (`File::set_len`), so once the whole encoding reached the
   * file it is exactly that encoding. Results and flag are as before.
   */
  function PersistTruncating(s: FileDatabase, rss: RssChannel, fault: Fault): (r: Step<()>)
    ensures r.result == Persist(s, rss, fault).result
    ensures r.db.hasContent == Persist(s, rss, fault).db.hasContent
    ensures r.result.Success? ==>
              (!s.hasContent || Decode(s.file).Some?) && Decode(r.db.file) == Some(Appended(s, rss))
  {
    var r := Persist(s, rss, fault);
    if r.result.Success? || r.result == Failure(SyncFailed) then
      DecodeEncode(Appended(s, rss));
      r.(db := r.db.(file := Encode(Appended(s, rss))))
    else r
  }

  /**
   * With truncation the same sequence of events leaves a readable store
   * holding just the second channel, and the next persist appends to it.
   */
  lemma TruncatingRewriteRecovers(long: RssChannel, short: RssChannel, next: RssChannel)
    ensures var s1 := PersistTruncating(Open(None, true).value, long, SyncFault);
            var s2 := PersistTruncating(s1.db, short, NoFault);
            && s1.result.Failure? && !s1.db.hasContent
            && s2.result.Success?
            && GetChannels(s2.db, NoFault).result == Success([FromRss(short)])
            && PersistTruncating(s2.db, next, NoFault).result.Success?
  {
    var s0 := Open(None, true).value;
    var s1 := PersistTruncating(s0, long, SyncFault);
    var s2 := PersistTruncating(s1.db, short, NoFault);
    assert !s0.hasContent;
    assert s1.result.Failure? && !s1.db.hasContent;
    assert s2.result.Success? && s2.db.hasContent;
    assert Decode(s2.db.file) == Some(Database([FromRss(short)])) by {
      assert [] + [FromRss(short)] == [FromRss(short)];
    }
  }
}

=== FILE: json.dfy ===
/**
 * serde_json as the store uses it: the compact writer's output for a
 * `Database`, and a reader for that output.
 *
 * The writer emits `{"channels":[{"title":"..."},...]}` with no whitespace,
 * escaping `"` and `\`, the five named control escapes and every other byte
 * below 0x20 as `\u00XX` with lower-case hex. The reader accepts that text
 * with JSON whitespace around any token, requires the whole input to be one
 * value followed only by whitespace (a reader of the whole file), and rejects
 * an unescaped control byte inside a string.
 */
module Json {
  import opened Wrappers
  import opened Bytes
  import opened Schema

  const QUOTE: byte := '"' as byte
  const BACKSLASH: byte := '\\' as byte
  const LBRACE: byte := '{' as byte
  const RBRACE: byte := '}' as byte
  const LBRACKET: byte := '[' as byte
  const RBRACKET: byte := ']' as byte
  const COMMA: byte := ',' as byte
  const COLON: byte := ':' as byte

  /** The field names, quoted, as they appear in the file. */
  const TITLE_KEY: seq<byte> := [QUOTE, 't' as byte, 'i' as byte, 't' as byte, 'l' as byte, 'e' as byte, QUOTE]
  const CHANNELS_KEY: seq<byte> :=
    [QUOTE, 'c' as byte, 'h' as byte, 'a' as byte, 'n' as byte, 'n' as byte, 'e' as byte, 'l' as byte, 's' as byte, QUOTE]

  /** JSON whitespace: space, tab, line feed, carriage return. */
  predicate IsWhitespace(b: byte) {
    b == ' ' as byte || b == '\t' as byte || b == '\n' as byte || b == '\r' as byte
  }

  // ---------------------------------------------------------------------
  // Writer
  // ---------------------------------------------------------------------

  function HexDigit(n: nat): (d: byte)
    requires n < 16
  {
    if n < 10 then ('0' as int + n) as byte else ('a' as int + n - 10) as byte
  }

  /** Bytes the writer copies into a string unchanged. */
  predicate Plain(b: byte) {
    b >= 0x20 && b != QUOTE && b != BACKSLASH
  }

  /**
   * How the writer spells one byte of a string: a plain byte as itself,
   * anything else as an escape of two or six bytes starting with a backslash.
   */
  function EscapeByte(b: byte): (e: seq<byte>)
    ensures Plain(b) ==> e == [b]
    ensures !Plain(b) ==> (|e| == 2 || |e| == 6) && e[0] == BACKSLASH
  {
    if b == QUOTE then [BACKSLASH, QUOTE]
    else if b == BACKSLASH then [BACKSLASH, BACKSLASH]
    else if b == 0x08 then [BACKSLASH, 'b' as byte]
    else if b == 0x0C then [BACKSLASH, 'f' as byte]
    else if b == 0x0A then [BACKSLASH, 'n' as byte]
    else if b == 0x0D then [BACKSLASH, 'r' as byte]
    else if b == 0x09 then [BACKSLASH, 't' as byte]
    else if b < 0x20 then [BACKSLASH, 'u' as byte, '0' as byte, '0' as byte, HexDigit(b as nat / 16), HexDigit(b as nat % 16)]
    else [b]
  }

  function Escape(t: seq<byte>): seq<byte>
  {
    if |t| == 0 then [] else EscapeByte(t[0]) + Escape(t[1..])
  }

  // The writer's output is built token by token, nested to the right, so
  // that the reader's steps line up with it.

  /** `{"title":"..."}` */
  function EncodeChannel(c: Channel): seq<byte>
  {
    [LBRACE] + (TITLE_KEY + ([COLON] + ([QUOTE] + (Escape(c.title) + ([QUOTE] + [RBRACE])))))
  }

  /** The channels after the first one, each preceded by a comma. */
  function EncodeMore(cs: seq<Channel>): seq<byte>
  {
    if |cs| == 0 then [] else [COMMA] + (EncodeChannel(cs[0]) + EncodeMore(cs[1..]))
  }

  function EncodeItems(cs: seq<Channel>): seq<byte>
  {
    if |cs| == 0 then [] else EncodeChannel(cs[0]) + EncodeMore(cs[1..])
  }

  /**
   * `serde_json::to_writer` applied to a database: the 13 bytes
   * `{"channels":[`, the channels, then `]}`.
   */
  function Encode(db: Database): (r: seq<byte>)
    ensures |r| == 15 + |EncodeItems(db.channels)|
    ensures r[..13] == [LBRACE] + CHANNELS_KEY + [COLON, LBRACKET]
    ensures r[13..|r| - 2] == EncodeItems(db.channels)
    ensures r[|r| - 2..] == [RBRACKET, RBRACE]
  {
    EncodeLayout(EncodeItems(db.channels));
    [LBRACE] + (CHANNELS_KEY + ([COLON] + ([LBRACKET] + (EncodeItems(db.channels) + ([RBRACKET] + [RBRACE])))))
  }

  /** Where the parts of a written database sit among its bytes. */
  lemma EncodeLayout(items: seq<byte>)
    ensures var r := [LBRACE] + (CHANNELS_KEY + ([COLON] + ([LBRACKET] + (items + ([RBRACKET] + [RBRACE])))));
            && |r| == 15 + |items|
            && r[..13] == [LBRACE] + CHANNELS_KEY + [COLON, LBRACKET]
            && r[13..|r| - 2] == items
            && r[|r| - 2..] == [RBRACKET, RBRACE]
  {
    var head := [LBRACE] + CHANNELS_KEY + [COLON, LBRACKET];
    var r := [LBRACE] + (CHANNELS_KEY + ([COLON] + ([LBRACKET] + (items + ([RBRACKET] + [RBRACE])))));
    assert r == head + (items + [RBRACKET, RBRACE]);
    assert r[|head|..] == items + [RBRACKET, RBRACE];
  }

  // ---------------------------------------------------------------------
  // Reader
  // ---------------------------------------------------------------------

  function SkipWhitespace(s: seq<byte>): (r: seq<byte>)
    ensures |r| <= |s|
    ensures |r| == 0 || !IsWhitespace(r[0])
  {
    if |s| > 0 && IsWhitespace(s[0]) then SkipWhitespace(s[1..]) else s
  }

  /** Skips whitespace, then consumes the literal `lit`. */
  function Token(s: seq<byte>, lit: seq<byte>): (r: Option<seq<byte>>)
    ensures r.Some? ==> |r.value| + |lit| <= |s|
  {
    var t := SkipWhitespace(s);
    if |lit| <= |t| && t[..|lit|] == lit then Some(t[|lit|..]) else None
  }

  function HexValue(d: byte): (r: Option<nat>)
    ensures r.Some? ==> r.value < 16
  {
    if '0' as byte <= d <= '9' as byte then Some((d - '0' as byte) as nat)
    else if 'a' as byte <= d <= 'f' as byte then Some((d - 'a' as byte) as nat + 10)
    else if 'A' as byte <= d <= 'F' as byte then Some((d - 'A' as byte) as nat + 10)
    else None
  }

  /**
   * Reads one escape sequence at the head of `s` (which starts with a
   * backslash); yields the byte it stands for and its length. A `\u` escape
   * is read only for code points below 0x80, which are one byte in UTF-8.
   */
  function ReadEscape(s: seq<byte>): (r: Option<(byte, nat)>)
    requires |s| > 0 && s[0] == BACKSLASH
    ensures r.Some? ==> 2 <= r.value.1 <= |s|
  {
    if |s| < 2 then None
    else if s[1] == QUOTE then Some((QUOTE, 2))
    else if s[1] == BACKSLASH then Some((BACKSLASH, 2))
    else if s[1] == '/' as byte then Some(('/' as byte, 2))
    else if s[1] == 'b' as byte then Some((0x08, 2))
    else if s[1] == 'f' as byte then Some((0x0C, 2))
    else if s[1] == 'n' as byte then Some((0x0A, 2))
    else if s[1] == 'r' as byte then Some((0x0D, 2))
    else if s[1] == 't' as byte then Some((0x09, 2))
    else if s[1] == 'u' as byte && |s| >= 6 && s[2] == '0' as byte && s[3] == '0' as byte then
      match (HexValue(s[4]), HexValue(s[5]))
      case (Some(hi), Some(lo)) =>
        if hi * 16 + lo < 0x80 then Some(((hi * 16 + lo) as byte, 6)) else None
      case _ => None
    else None
  }

  /**
   * Reads the rest of a string whose opening quote is already consumed;
   * yields its bytes and the input after the closing quote.
   */
  function ReadStringBody(s: seq<byte>): (r: Option<(seq<byte>, seq<byte>)>)
    ensures r.Some? ==> |r.value.1| < |s|
    decreases |s|
  {
    if |s| == 0 then None
    else if s[0] == QUOTE then Some(([], s[1..]))
    else if s[0] == BACKSLASH then
      match ReadEscape(s)
      case None => None
      case Some((b, k)) =>
        match ReadStringBody(s[k..])
        case None => None
        case Some((t, rest)) => Some(([b] + t, rest))
    else if s[0] < 0x20 then None
    else
      match ReadStringBody(s[1..])
      case None => None
      case Some((t, rest)) => Some(([s[0]] + t, rest))
  }

  function ReadChannel(s: seq<byte>): (r: Option<(Channel, seq<byte>)>)
    ensures r.Some? ==> |r.value.1| < |s|
  {
    var a :- Token(s, [LBRACE]);
    var b :- Token(a, TITLE_KEY);
    var c :- Token(b, [COLON]);
    var d :- Token(c, [QUOTE]);
    var body :- ReadStringBody(d);
    var e :- Token(body.1, [RBRACE]);
    Some((Channel(body.0), e))
  }

  /** Reads `,channel` repeatedly up to and including the closing bracket. */
  function ReadMore(s: seq<byte>): (r: Option<(seq<Channel>, seq<byte>)>)
    ensures r.Some? ==> |r.value.1| < |s|
    decreases |s|
  {
    match Token(s, [COMMA])
    case Some(a) =>
      var first :- ReadChannel(a);
      var more :- ReadMore(first.1);
      Some(([first.0] + more.0, more.1))
    case None =>
      var b :- Token(s, [RBRACKET]);
      Some(([], b))
  }

  /** Reads a channel list whose opening bracket is already consumed. */
  function ReadItems(s: seq<byte>): (r: Option<(seq<Channel>, seq<byte>)>)
    ensures r.Some? ==> |r.value.1| < |s|
  {
    match Token(s, [RBRACKET])
    case Some(b) => Some(([], b))
    case None =>
      var first :- ReadChannel(s);
      var more :- ReadMore(first.1);
      Some(([first.0] + more.0, more.1))
  }

  /** Reads one database value; yields it and the input after its closing brace. */
  function ReadDatabase(s: seq<byte>): (r: Option<(Database, seq<byte>)>)
    ensures r.Some? ==> |r.value.1| + |Encode(Database([]))| <= |s|
  {
    var a :- Token(s, [LBRACE]);
    var b :- Token(a, CHANNELS_KEY);
    var c :- Token(b, [COLON]);
    var d :- Token(c, [LBRACKET]);
    var items :- ReadItems(d);
    var e :- Token(items.1, [RBRACE]);
    Some((Database(items.0), e))
  }

  /**
   * `serde_json::from_reader` on the whole file: one database value, then
   * nothing but whitespace. Nothing shorter than the encoding of the empty
   * database is accepted; in particular an empty file does not decode.
   */
  function Decode(file: seq<byte>): (r: Option<Database>)
    ensures r.Some? ==> |file| >= |Encode(Database([]))|
  {
    match ReadDatabase(file)
    case Some((db, rest)) => if |SkipWhitespace(rest)| == 0 then Some(db) else None
    case None => None
  }

  // ---------------------------------------------------------------------
  // Round trip: the reader reads back what the writer wrote
  // ---------------------------------------------------------------------

  lemma HexRoundTrip(n: nat)
    requires n < 16
    ensures HexValue(HexDigit(n)) == Some(n)
  {
  }

  lemma Assoc(a: seq<byte>, b: seq<byte>, c: seq<byte>)
    ensures (a + b) + c == a + (b + c)
  {
  }

  /** One spelled-out byte is read back as that byte, whatever follows it. */
  lemma ReadEscapedByte(b: byte, tail: seq<byte>, t: seq<byte>, rest: seq<byte>)
    requires ReadStringBody(tail) == Some((t, rest))
    ensures ReadStringBody(EscapeByte(b) + tail) == Some(([b] + t, rest))
  {
    var e := EscapeByte(b);
    var s := e + tail;
    assert s[|e|..] == tail;
    if b < 0x20 && b != 0x08 && b != 0x0C && b != 0x0A && b != 0x0D && b != 0x09 {
      HexRoundTrip(b as nat / 16);
      HexRoundTrip(b as nat % 16);
      assert ReadEscape(s) == Some((b, 6));
    }
  }

  lemma {:induction false} ReadStringBodyRoundTrip(t: seq<byte>, rest: seq<byte>)
    ensures ReadStringBody(Escape(t) + ([QUOTE] + rest)) == Some((t, rest))
    decreases |t|
  {
    if |t| == 0 {
      assert Escape(t) + ([QUOTE] + rest) == [QUOTE] + rest;
    } else {
      var tail := Escape(t[1..]) + ([QUOTE] + rest);
      ReadStringBodyRoundTrip(t[1..], rest);
      ReadEscapedByte(t[0], tail, t[1..], rest);
      Assoc(EscapeByte(t[0]), Escape(t[1..]), [QUOTE] + rest);
      assert [t[0]] + t[1..] == t;
    }
  }

  /** A token is found at the head of any text that starts with it. */
  lemma TokenAtHead(lit: seq<byte>, rest: seq<byte>)
    requires |lit| > 0 && !IsWhitespace(lit[0])
    ensures Token(lit + rest, lit) == Some(rest)
  {
    assert (lit + rest)[..|lit|] == lit;
  }

  /** A token is not found at the head of text starting with another non-blank byte. */
  lemma TokenMissing(lit: seq<byte>, s: seq<byte>)
    requires |lit| > 0 && |s| > 0 && !IsWhitespace(s[0]) && s[0] != lit[0]
    ensures Token(s, lit) == None
  {
  }

  lemma ReadChannelRoundTrip(c: Channel, rest: seq<byte>)
    ensures ReadChannel(EncodeChannel(c) + rest) == Some((c, rest))
  {
    var e := [RBRACE] + rest;
    var d := Escape(c.title) + ([QUOTE] + e);
    var cc := [QUOTE] + d;
    var b := [COLON] + cc;
    var a := TITLE_KEY + b;
    // Re-associate the encoding with `rest` one level at a time.
    Assoc([QUOTE], [RBRACE], rest);
    Assoc(Escape(c.title), [QUOTE] + [RBRACE], rest);
    Assoc([QUOTE], Escape(c.title) + ([QUOTE] + [RBRACE]), rest);
    Assoc([COLON], [QUOTE] + (Escape(c.title) + ([QUOTE] + [RBRACE])), rest);
    Assoc(TITLE_KEY, [COLON] + ([QUOTE] + (Escape(c.title) + ([QUOTE] + [RBRACE]))), rest);
    Assoc([LBRACE], TITLE_KEY + ([COLON] + ([QUOTE] + (Escape(c.title) + ([QUOTE] + [RBRACE])))), rest);
    assert EncodeChannel(c) + rest == [LBRACE] + a;
    TokenAtHead([LBRACE], a);
    TokenAtHead(TITLE_KEY, b);
    TokenAtHead([COLON], cc);
    TokenAtHead([QUOTE], d);
    ReadStringBodyRoundTrip(c.title, e);
    TokenAtHead([RBRACE], rest);
  }

  lemma ReadMoreEnd(rest: seq<byte>)
    ensures ReadMore([RBRACKET] + rest) == Some(([], rest))
  {
    TokenMissing([COMMA], [RBRACKET] + rest);
    TokenAtHead([RBRACKET], rest);
  }

  lemma ReadMoreStep(c: Channel, tail: seq<byte>, cs: seq<Channel>, rest: seq<byte>)
    requires ReadMore(tail) == Some((cs, rest))
    ensures ReadMore([COMMA] + (EncodeChannel(c) + tail)) == Some(([c] + cs, rest))
  {
    TokenAtHead([COMMA], EncodeChannel(c) + tail);
    ReadChannelRoundTrip(c, tail);
  }

  /** The comma-separated tail of a list followed by `rest`, split at its first item. */
  lemma EncodeMoreCons(cs: seq<Channel>, rest: seq<byte>)
    requires |cs| > 0
    ensures EncodeMore(cs) + rest == [COMMA] + (EncodeChannel(cs[0]) + (EncodeMore(cs[1..]) + rest))
  {
    Assoc([COMMA], EncodeChannel(cs[0]) + EncodeMore(cs[1..]), rest);
    Assoc(EncodeChannel(cs[0]), EncodeMore(cs[1..]), rest);
  }

  lemma {:induction false} ReadMoreRoundTrip(cs: seq<Channel>, rest: seq<byte>)
    ensures ReadMore(EncodeMore(cs) + ([RBRACKET] + rest)) == Some((cs, rest))
    decreases |cs|
  {
    if |cs| == 0 {
      assert EncodeMore(cs) + ([RBRACKET] + rest) == [RBRACKET] + rest;
      ReadMoreEnd(rest);
    } else {
      ReadMoreRoundTrip(cs[1..], rest);
      ReadMoreStep(cs[0], EncodeMore(cs[1..]) + ([RBRACKET] + rest), cs[1..], rest);
      EncodeMoreCons(cs, [RBRACKET] + rest);
      assert [cs[0]] + cs[1..] == cs;
    }
  }

  lemma ReadItemsFirst(c: Channel, tail: seq<byte>, cs: seq<Channel>, rest: seq<byte>)
    requires ReadMore(tail) == Some((cs, rest))
    ensures ReadItems(EncodeChannel(c) + tail) == Some(([c] + cs, rest))
  {
    TokenMissing([RBRACKET], EncodeChannel(c) + tail);
    ReadChannelRoundTrip(c, tail);
  }

  lemma EncodeItemsCons(cs: seq<Channel>, rest: seq<byte>)
    requires |cs| > 0
    ensures EncodeItems(cs) + rest == EncodeChannel(cs[0]) + (EncodeMore(cs[1..]) + rest)
  {
    Assoc(EncodeChannel(cs[0]), EncodeMore(cs[1..]), rest);
  }

  lemma ReadItemsEmpty(rest: seq<byte>)
    ensures ReadItems(EncodeItems([]) + ([RBRACKET] + rest)) == Some(([], rest))
  {
    assert EncodeItems([]) + ([RBRACKET] + rest) == [RBRACKET] + rest;
    TokenAtHead([RBRACKET], rest);
  }

  lemma ReadItemsRoundTrip(cs: seq<Channel>, rest: seq<byte>)
    ensures ReadItems(EncodeItems(cs) + ([RBRACKET] + rest)) == Some((cs, rest))
  {
    if |cs| == 0 {
      ReadItemsEmpty(rest);
    } else {
      var tail := EncodeMore(cs[1..]) + ([RBRACKET] + rest);
      ReadMoreRoundTrip(cs[1..], rest);
      ReadItemsFirst(cs[0], tail, cs[1..], rest);
      EncodeItemsCons(cs, [RBRACKET] + rest);
      assert [cs[0]] + cs[1..] == cs;
      assert ReadItems(EncodeChannel(cs[0]) + tail) == Some((cs, rest));
    }
  }

  /** The encoding of a database followed by `rest`, re-associated token by token. */
  lemma EncodeTokens(db: Database, rest: seq<byte>)
    ensures Encode(db) + rest
         == [LBRACE] + (CHANNELS_KEY + ([COLON] + ([LBRACKET] + (EncodeItems(db.channels) + ([RBRACKET] + ([RBRACE] + rest))))))
  {
    var items := EncodeItems(db.channels);
    Assoc([RBRACKET], [RBRACE], rest);
    Assoc(items, [RBRACKET] + [RBRACE], rest);
    Assoc([LBRACKET], items + ([RBRACKET] + [RBRACE]), rest);
    Assoc([COLON], [LBRACKET] + (items + ([RBRACKET] + [RBRACE])), rest);
    Assoc(CHANNELS_KEY, [COLON] + ([LBRACKET] + (items + ([RBRACKET] + [RBRACE]))), rest);
    Assoc([LBRACE], CHANNELS_KEY + ([COLON] + ([LBRACKET] + (items + ([RBRACKET] + [RBRACE])))), rest);
  }

  lemma ReadDatabaseRoundTrip(db: Database, rest: seq<byte>)
    ensures ReadDatabase(Encode(db) + rest) == Some((db, rest))
  {
    var e := [RBRACE] + rest;
    var d := EncodeItems(db.channels) + ([RBRACKET] + e);
    var c := [LBRACKET] + d;
    var b := [COLON] + c;
    var a := CHANNELS_KEY + b;
    var s := [LBRACE] + a;
    TokenAtHead([LBRACE], a);
    TokenAtHead(CHANNELS_KEY, b);
    TokenAtHead([COLON], c);
    TokenAtHead([LBRACKET], d);
    ReadItemsRoundTrip(db.channels, e);
    TokenAtHead([RBRACE], rest);
    assert ReadDatabase(s) == Some((db, rest));
    EncodeTokens(db, rest);
  }

  /** Every database the writer produces is read back unchanged. */
  lemma DecodeEncode(db: Database)
    ensures Decode(Encode(db)) == Some(db)
  {
    ReadDatabaseRoundTrip(db, []);
    assert Encode(db) + [] == Encode(db);
  }

  /**
   * A written database followed by `tail` is read back exactly when `tail`
   * is whitespace only; any other byte after the value makes the file
   * unreadable (serde_json's "trailing characters").
   */
  lemma DecodeWithTail(db: Database, tail: seq<byte>)
    ensures Decode(Encode(db) + tail) == if |SkipWhitespace(tail)| == 0 then Some(db) else None
  {
    ReadDatabaseRoundTrip(db, tail);
  }

  /** The case a reader meets first: a tail that starts with a non-whitespace byte. */
  lemma DecodeRejectsTrailingBytes(db: Database, tail: seq<byte>)
    requires |tail| > 0 && !IsWhitespace(tail[0])
    ensures Decode(Encode(db) + tail) == None
  {
    DecodeWithTail(db, tail);
  }

  /** A byte string that ends in a non-whitespace byte is not all whitespace. */
  lemma {:induction false} SkipWhitespaceKeepsLast(s: seq<byte>)
    requires |s| > 0 && !IsWhitespace(s[|s| - 1])
    ensures |SkipWhitespace(s)| > 0
  {
    if IsWhitespace(s[0]) {
      assert s[1..][|s| - 2] == s[|s| - 1];
      SkipWhitespaceKeepsLast(s[1..]);
    }
  }

  // ---------------------------------------------------------------------
  // Appending a channel
  // ---------------------------------------------------------------------

  lemma {:induction false} EncodeMoreAppendLength(cs: seq<Channel>, c: Channel)
    ensures |EncodeMore(cs + [c])| == |EncodeMore(cs)| + 1 + |EncodeChannel(c)|
    decreases |cs|
  {
    if |cs| == 0 {
      assert cs + [c] == [c];
    } else {
      assert (cs + [c])[1..] == cs[1..] + [c];
      EncodeMoreAppendLength(cs[1..], c);
    }
  }

  /**
   * Appending a channel lengthens the encoding by exactly that channel's
   * encoding, plus the separating comma when it is not the first.
   */
  lemma EncodeAppendLength(cs: seq<Channel>, c: Channel)
    ensures |Encode(Database(cs + [c]))|
         == |Encode(Database(cs))| + |EncodeChannel(c)| + (if |cs| == 0 then 0 else 1)
  {
    if |cs| == 0 {
      assert cs + [c] == [c];
    } else {
      assert (cs + [c])[1..] == cs[1..] + [c];
      EncodeMoreAppendLength(cs[1..], c);
    }
  }
}

=== FILE: persistence.dfy ===
/**
 * The file-backed channel store (`FileDatabase`): a flag telling whether the
 * file held a database when it was opened, and the file's bytes.
 *
 * Every operation is a pure transition. The file system's answers (whether
 * the path existed, what it held, which I/O call fails) are parameters.
 */
module Persistence {
  import opened Wrappers
  import opened Bytes
  import opened Schema
  import opened Json

  datatype FileDatabase = FileDatabase(hasContent: bool, file: seq<byte>)

  /**
   * The first I/O call that fails during an operation, if any. Every fallible
   * call is followed by `?`, so only the first failure matters. A failure
   * named for a step the operation does not reach has no effect.
   */
  datatype Fault =
    | NoFault
      /** rewinding the file before reading it */
    | LoadSeekFault
      /** reading the file while deserializing it */
    | ReadFault
      /** rewinding the file before rewriting it */
    | RewindFault
      /** a write while serializing; the first `written` bytes reached the file */
    | SerializeFault(written: nat)
      /** flushing the buffered writer; the first `written` bytes reached the file */
    | FlushFault(written: nat)
      /** `sync_all`, after every byte reached the file */
    | SyncFault
  {
    /** Fails inside `load_database`. */
    predicate HitsLoad() {
      LoadSeekFault? || ReadFault?
    }

    /** Fails after `persist_channel` has built the new database. */
    predicate HitsRewrite() {
      RewindFault? || SerializeFault? || FlushFault? || SyncFault?
    }
  }

  datatype LoadError =
    | LoadRewindFailed   // "rewinding database file"
    | DeserializeFailed  // "deserializing database file": unreadable or malformed

  datatype Error =
    | OpenFailed
    | ReloadFailed(cause: LoadError)  // `persist_channel`: "reloading database"
    | LoadFailed(cause: LoadError)    // `get_channels`: no added context
    | RewindFailed
    | SerializeFailed
    | FlushFailed
    | SyncFailed

  /** The state after an operation, with the operation's result. */
  datatype Step<T> = Step(result: Result<T, Error>, db: FileDatabase)

  /**
   * Writing `data` at offset 0 of a file holding `current`, without truncating:
   * the file begins with `data`, and the bytes of `current` past its end stay.
   */
  function Overwrite(current: seq<byte>, data: seq<byte>): (r: seq<byte>)
    ensures |r| == if |data| < |current| then |current| else |data|
    ensures r[..|data|] == data
    ensures forall i | |data| <= i < |current| :: r[i] == current[i]
  {
    if |data| < |current| then data + current[|data|..] else data
  }

  /** The bytes that reached the file before a write failed. */
  function WrittenPrefix(data: seq<byte>, written: nat): (r: seq<byte>)
    ensures |r| <= |data| && r == data[..|r|]
    ensures written >= |data| ==> r == data
  {
    if written < |data| then data[..written] else data
  }

  /**
   * `FileDatabase::new_for_path`. `disk` is the file at the path before the
   * call (`None` when the path does not exist); opening creates it empty if
   * absent. `openSucceeds` is the outcome of the open call itself.
   */
  function Open(disk: Option<seq<byte>>, openSucceeds: bool): (r: Result<FileDatabase, Error>)
    ensures r.Success? <==> openSucceeds
    ensures r.Success? ==> (r.value.hasContent <==> disk.Some?)
    ensures r.Success? && disk.None? ==> r.value.file == []
    ensures r.Success? && disk.Some? ==> r.value.file == disk.value
  {
    if !openSucceeds then Failure(OpenFailed)
    else
      match disk
      case None => Success(FileDatabase(false, []))
      case Some(bytes) => Success(FileDatabase(true, bytes))
  }

  /** `load_database`: rewinds and deserializes the whole file. */
  function LoadDatabase(s: FileDatabase, fault: Fault): (r: Result<Database, LoadError>)
    ensures r.Success? <==> !fault.HitsLoad() && Decode(s.file).Some?
    ensures r.Success? ==> r.value == Decode(s.file).value
    ensures fault.LoadSeekFault? ==> r == Failure(LoadRewindFailed)
    ensures r.Failure? && !fault.LoadSeekFault? ==> r == Failure(DeserializeFailed)
  {
    if fault.LoadSeekFault? then Failure(LoadRewindFailed)
    else if fault.ReadFault? then Failure(DeserializeFailed)
    else
      match Decode(s.file)
      case None => Failure(DeserializeFailed)
      case Some(db) => Success(db)
  }

  /**
   * The channels `persist_channel` starts from: the reloaded list when the
   * file had content, the empty list otherwise.
   */
  function Previous(s: FileDatabase, fault: Fault): Result<Database, LoadError>
  {
    if s.hasContent then LoadDatabase(s, fault) else Success(Database([]))
  }

  /**
   * The database `persist_channel` writes once the previous one is known:
   * the stored channels (none when the store has no content), then `rss`.
   */
  function Appended(s: FileDatabase, rss: RssChannel): (db: Database)
    requires s.hasContent ==> Decode(s.file).Some?
    ensures |db.channels| > 0 && db.channels[|db.channels| - 1] == FromRss(rss)
    ensures s.hasContent ==> db.channels[..|db.channels| - 1] == Decode(s.file).value.channels
    ensures !s.hasContent ==> db.channels == [FromRss(rss)]
  {
    var prior := if s.hasContent then Decode(s.file).value.channels else [];
    assert (prior + [FromRss(rss)])[..|prior|] == prior;
    Database(prior + [FromRss(rss)])
  }

  /** `persist_channel`: append the channel and rewrite the file from offset 0. */
  function Persist(s: FileDatabase, rss: RssChannel, fault: Fault): (r: Step<()>)
    ensures r.result.Success? <==>
              (!s.hasContent || (!fault.HitsLoad() && Decode(s.file).Some?)) && !fault.HitsRewrite()
    ensures r.result.Success? ==> r.db.hasContent
    ensures r.result.Failure? ==> r.db.hasContent == s.hasContent
    ensures r.result.Failure? && r.result.error.ReloadFailed? ==> r.db == s
    ensures r.result.Failure? && r.result.error.ReloadFailed? ==>
              s.hasContent && LoadDatabase(s, fault) == Failure(r.result.error.cause)
    ensures r.result.Success? ==> r.db.file == Overwrite(s.file, Encode(Appended(s, rss)))
    ensures r.result == Failure(RewindFailed) ==> r.db == s
    ensures r.result == Failure(SyncFailed) ==>
              (!s.hasContent || Decode(s.file).Some?) && r.db.file == Overwrite(s.file, Encode(Appended(s, rss)))
    ensures r.result == Failure(SerializeFailed) || r.result == Failure(FlushFailed) ==>
              && (!s.hasContent || Decode(s.file).Some?)
              && var encoded := Encode(Appended(s, rss));
                 exists n | 0 <= n <= |encoded| :: r.db.file == Overwrite(s.file, encoded[..n])
    ensures s.hasContent && (fault.HitsLoad() || Decode(s.file).None?) ==>
              r.result.Failure? && r.result.error.ReloadFailed?
    ensures (!s.hasContent || (!fault.HitsLoad() && Decode(s.file).Some?)) ==>
              && (fault.RewindFault? ==> r.result == Failure(RewindFailed))
              && (fault.SerializeFault? ==> r.result == Failure(SerializeFailed))
              && (fault.FlushFault? ==> r.result == Failure(FlushFailed))
              && (fault.SyncFault? ==> r.result == Failure(SyncFailed))
  {
    match Previous(s, fault)
    case Failure(e) => Step(Failure(ReloadFailed(e)), s)
    case Success(_) =>
      var encoded := Encode(Appended(s, rss));
      match fault
      case RewindFault => Step(Failure(RewindFailed), s)
      case SerializeFault(n) =>
        Step(Failure(SerializeFailed), s.(file := Overwrite(s.file, WrittenPrefix(encoded, n))))
      case FlushFault(n) =>
        Step(Failure(FlushFailed), s.(file := Overwrite(s.file, WrittenPrefix(encoded, n))))
      case SyncFault =>
        assert encoded[..|encoded|] == encoded;
        Step(Failure(SyncFailed), s.(file := Overwrite(s.file, encoded)))
      case _ => Step(Success(()), FileDatabase(true, Overwrite(s.file, encoded)))
  }

  /** `get_channels`: reload the file and return its channels. */
  function GetChannels(s: FileDatabase, fault: Fault): (r: Step<seq<Channel>>)
    ensures r.db == s
    ensures r.result.Success? <==> !fault.HitsLoad() && Decode(s.file).Some?
    ensures r.result.Success? ==> r.result.value == Decode(s.file).value.channels
    ensures r.result.Failure? ==> r.result.error == LoadFailed(LoadDatabase(s, fault).error)
  {
    match LoadDatabase(s, fault)
    case Failure(e) => Step(Failure(LoadFailed(e)), s)
    case Success(db) => Step(Success(db.channels), s)
  }
}

=== FILE: schema.dfy ===
/**
 * The records of the channel store: the feed channel handed in by the
 * fetcher, the stored `Channel`, and the `Database` written to the file.
 */
module Schema {
  import opened Bytes

  /**
   * The parsed feed channel (`rss::Channel`). Only the fields needed to tell
   * that the conversion drops them are kept; a title is a UTF-8 byte string.
   */
  datatype RssChannel = RssChannel(title: seq<byte>, link: seq<byte>, description: seq<byte>)

  /** A stored channel: the title only. */
  datatype Channel = Channel(title: seq<byte>)

  /** The whole file contents: the channels in the order they were persisted. */
  datatype Database = Database(channels: seq<Channel>)

  /** The `From<&RSSChannel> for Channel` conversion: keeps the title, drops the rest. */
  function FromRss(rss: RssChannel): (c: Channel)
    ensures c.title == rss.title
  {
    Channel(rss.title)
  }
}

=== FILE: store_properties.dfy ===
/**
 * Properties of the channel store across operations: what a persist leaves
 * in the file, and what a later reload reads back.
 */
module StoreProperties {
  import opened Wrappers
  import opened Bytes
  import opened Schema
  import opened Json
  import opened Persistence

  /**
   * The states the store reaches on its own: a just-created empty file that
   * has not been written, or a file holding exactly one encoded database.
   */
  predicate Canonical(s: FileDatabase) {
    if s.hasContent then Decode(s.file).Some? && Encode(Decode(s.file).value) == s.file
    else s.file == []
  }

  /** The channels a canonical store holds. */
  function Stored(s: FileDatabase): seq<Channel>
    requires Canonical(s)
  {
    if s.hasContent then Decode(s.file).value.channels else []
  }

  /** Writing at least as many bytes as the file holds replaces it exactly. */
  lemma OverwriteCovers(current: seq<byte>, data: seq<byte>)
    requires |data| >= |current|
    ensures Overwrite(current, data) == data
  {
    var r := Overwrite(current, data);
    assert r == r[..|data|];
  }

  /**
   * A persist into a store without content never reloads: it succeeds unless
   * the rewrite fails, even when a read of the file would have failed, and a
   * just-created file then holds exactly the one new channel.
   */
  lemma PersistOnFreshStore(s: FileDatabase, rss: RssChannel, fault: Fault)
    requires !s.hasContent
    ensures Persist(s, rss, fault).result.Success? <==> !fault.HitsRewrite()
    ensures s.file == [] && !fault.HitsRewrite() ==>
              Decode(Persist(s, rss, fault).db.file) == Some(Database([FromRss(rss)]))
  {
    if s.file == [] && !fault.HitsRewrite() {
      var r := Persist(s, rss, fault);
      var encoded := Encode(Database([] + [FromRss(rss)]));
      assert [] + [FromRss(rss)] == [FromRss(rss)];
      OverwriteCovers(s.file, encoded);
      DecodeEncode(Database([FromRss(rss)]));
    }
  }

  /**
   * A successful persist into a canonical store leaves it canonical, holding
   * the previous channels followed by the new one: every earlier entry stays
   * in place, unchanged, and the list grows by exactly one. Because the new
   * encoding is longer than the old, the rewrite covers the whole file.
   */
  lemma PersistAppends(s: FileDatabase, rss: RssChannel, fault: Fault)
    requires Canonical(s)
    requires Persist(s, rss, fault).result.Success?
    ensures Canonical(Persist(s, rss, fault).db)
    ensures Stored(Persist(s, rss, fault).db) == Stored(s) + [FromRss(rss)]
    ensures var after := Stored(Persist(s, rss, fault).db);
            && |after| == |Stored(s)| + 1
            && (forall i | 0 <= i < |Stored(s)| :: after[i] == Stored(s)[i])
            && after[|Stored(s)|] == FromRss(rss)
  {
    var r := Persist(s, rss, fault);
    var prior := Stored(s);
    var next := Database(prior + [FromRss(rss)]);
    var encoded := Encode(next);
    EncodeAppendLength(prior, FromRss(rss));
    if s.hasContent {
      assert s.file == Encode(Database(prior));
    }
    OverwriteCovers(s.file, encoded);
    assert r.db.file == encoded;
    DecodeEncode(next);
  }

  /** With no I/O failure, a persist into a canonical store always succeeds and appends. */
  lemma PersistCanonical(s: FileDatabase, rss: RssChannel)
    requires Canonical(s)
    ensures Persist(s, rss, NoFault).result.Success?
    ensures Canonical(Persist(s, rss, NoFault).db)
    ensures Stored(Persist(s, rss, NoFault).db) == Stored(s) + [FromRss(rss)]
  {
    PersistAppends(s, rss, NoFault);
  }

  /** Listing right after a persist into a canonical store shows the appended list. */
  lemma PersistThenList(s: FileDatabase, rss: RssChannel)
    requires Canonical(s)
    ensures GetChannels(Persist(s, rss, NoFault).db, NoFault).result == Success(Stored(s) + [FromRss(rss)])
  {
    PersistCanonical(s, rss);
    GetChannelsOfCanonical(Persist(s, rss, NoFault).db);
  }

  /** A store opened on a path that did not exist is canonical and empty. */
  lemma NewStoreIsCanonical()
    ensures Canonical(Open(None, true).value)
    ensures Stored(Open(None, true).value) == []
  {
  }

  /** Opening the file of a store that has content yields the same store. */
  lemma ReopenSameState(s: FileDatabase)
    requires s.hasContent
    ensures Open(Some(s.file), true) == Success(s)
  {
  }

  /**
   * A reload failure aborts before anything is written: the state, flag and
   * bytes alike, is left as it was.
   */
  lemma ReloadFailureWritesNothing(s: FileDatabase, rss: RssChannel, fault: Fault)
    requires s.hasContent && (fault.HitsLoad() || Decode(s.file).None?)
    ensures Persist(s, rss, fault).result.Failure?
    ensures Persist(s, rss, fault).result.error.ReloadFailed?
    ensures Persist(s, rss, fault).db == s
  {
  }

  /**
   * The rewrite starts at offset 0 and never truncates: a successful persist
   * leaves the file equal to the new encoding when that is at least as long
   * as the old file, and otherwise the new encoding followed by the old
   * file's remaining bytes.
   */
  lemma RewriteWithoutTruncation(s: FileDatabase, rss: RssChannel, fault: Fault)
    requires Persist(s, rss, fault).result.Success?
    ensures var prior := if s.hasContent then Decode(s.file).value.channels else [];
            var encoded := Encode(Database(prior + [FromRss(rss)]));
            var file := Persist(s, rss, fault).db.file;
            && (|encoded| >= |s.file| ==> file == encoded)
            && (|encoded| < |s.file| ==> file == encoded + s.file[|encoded|..])
  {
    var prior := if s.hasContent then Decode(s.file).value.channels else [];
    var encoded := Encode(Database(prior + [FromRss(rss)]));
    var file := Persist(s, rss, fault).db.file;
    if |encoded| >= |s.file| {
      assert file == file[..|encoded|];
    } else {
      assert file == file[..|encoded|] + file[|encoded|..];
      assert file[|encoded|..] == s.file[|encoded|..];
    }
  }

  /** `get_channels` on a canonical store yields exactly its channels. */
  lemma GetChannelsOfCanonical(s: FileDatabase)
    requires Canonical(s) && s.hasContent
    ensures GetChannels(s, NoFault).result == Success(Stored(s))
  {
  }

  /**
   * A store just created is listed as an error, not as an empty list: the
   * empty file does not decode.
   */
  lemma NewStoreCannotBeListed(fault: Fault)
    ensures GetChannels(Open(None, true).value, fault).result.Failure?
  {
  }
}

=== FILE: store_tests.dfy ===
/**
 * The scenarios of the store's unit tests, stated for all channels, with the
 * steps they are built from.
 */
module StoreTests {
  import opened Wrappers
  import opened Bytes
  import opened Schema
  import opened Json
  import opened Persistence
  import opened StoreProperties

  /**
   * Persisting does not deduplicate: the same channel persisted twice is
   * listed twice, after everything that was there before.
   */
  lemma PersistTwiceKeepsBoth(s: FileDatabase, rss: RssChannel)
    requires Canonical(s)
    ensures Persist(s, rss, NoFault).result.Success?
    ensures Persist(Persist(s, rss, NoFault).db, rss, NoFault).result.Success?
    ensures GetChannels(Persist(Persist(s, rss, NoFault).db, rss, NoFault).db, NoFault).result
         == Success(Stored(s) + [FromRss(rss), FromRss(rss)])
  {
    var s1 := Persist(s, rss, NoFault);
    PersistCanonical(s, rss);
    var s2 := Persist(s1.db, rss, NoFault);
    PersistCanonical(s1.db, rss);
    GetChannelsOfCanonical(s2.db);
    assert Stored(s) + [FromRss(rss)] + [FromRss(rss)] == Stored(s) + [FromRss(rss), FromRss(rss)];
  }

  /** The first persist into a newly created file writes exactly the encoding of that channel. */
  lemma FirstPersistOnNewFile(first: RssChannel)
    ensures var r := Persist(Open(None, true).value, first, NoFault);
            && r.result.Success?
            && r.db == FileDatabase(true, Encode(Database([FromRss(first)])))
  {
    assert [] + [FromRss(first)] == [FromRss(first)];
    OverwriteCovers([], Encode(Database([FromRss(first)])));
  }

  /**
   * A persist into a file holding the encoding of `cs` rewrites it to the
   * encoding of `cs` followed by the new channel.
   */
  lemma PersistOntoEncoded(cs: seq<Channel>, rss: RssChannel)
    ensures var r := Persist(FileDatabase(true, Encode(Database(cs))), rss, NoFault);
            && r.result.Success?
            && r.db == FileDatabase(true, Encode(Database(cs + [FromRss(rss)])))
  {
    DecodeEncode(Database(cs));
    EncodeAppendLength(cs, FromRss(rss));
    OverwriteCovers(Encode(Database(cs)), Encode(Database(cs + [FromRss(rss)])));
  }

  /** Listing a file that holds the encoding of `cs` yields `cs`. */
  lemma ListEncoded(cs: seq<Channel>)
    ensures GetChannels(FileDatabase(true, Encode(Database(cs))), NoFault).result == Success(cs)
  {
    DecodeEncode(Database(cs));
  }

  /**
   * Open a new file, persist a channel, open the same file again, persist a
   * second channel: listing yields both channels, first one first.
   */
  lemma ReopenKeepsEarlierChannels(first: RssChannel, second: RssChannel)
    ensures var r1 := Persist(Open(None, true).value, first, NoFault);
            var r2 := Persist(Open(Some(r1.db.file), true).value, second, NoFault);
            && r1.result.Success?
            && r2.result.Success?
            && GetChannels(r2.db, NoFault).result == Success([FromRss(first), FromRss(second)])
  {
    var r1 := Persist(Open(None, true).value, first, NoFault);
    FirstPersistOnNewFile(first);
    ReopenSameState(r1.db);
    PersistOntoEncoded([FromRss(first)], second);
    assert [FromRss(first)] + [FromRss(second)] == [FromRss(first), FromRss(second)];
    ListEncoded([FromRss(first), FromRss(second)]);
  }
}

=== FILE: wrappers.dfy ===
/** Failure-compatible Option and Result types used throughout the model. */
module Wrappers {

  /** An optional value; `None` is the failure case for the `:-` operator. */
  datatype Option<+T> = None | Some(value: T) {
    predicate IsFailure() {
      None?
    }

    function PropagateFailure<U>(): Option<U>
      requires None?
    {
      None
    }

    function Extract(): T
      requires Some?
    {
      value
    }
  }

  /** Either a value or an error, as Rust's `Result<T, E>`. */
  datatype Result<+T, +E> = Success(value: T) | Failure(error: E) {
    predicate IsFailure() {
      Failure?
    }

    function PropagateFailure<U>(): Result<U, E>
      requires Failure?
    {
      Failure(error)
    }

    function Extract(): T
      requires Success?
    {
      value
    }
  }
}
